=== FILE: README.md ===
# ElevateCV front-end logic in Dafny

ElevateCV is a browser front-end: the user uploads a resume file or pastes
its text, the page sends it to a hosted language model, and the structured
analysis that comes back is rendered as a dashboard. This project models the
three pieces of deterministic logic in it:

- the **intake state machine** of `App.tsx` — the application state
  `{result, loading, error, activeTab, textInput, selectedFile}`, the file
  picker and drop handlers with their 5 MiB guard, the analyze handler (with
  the network call replaced by an abstract `Outcome`), demo, reset, the small
  tab/text/remove-file handlers, the disabled predicate of the analyze button
  and the `split(',')[1]` that strips a data URL's prefix;
- the **score gauge** of `components/RadialScore.tsx` — the three-band colour
  tier, the zero-score fallback to the `color` prop, the two-slice pie data
  and the centre label;
- the **dashboard projections** of `components/Dashboard.tsx` — role-chart
  rows, bar highlighting, format-quality colours, the fallbacks for missing
  fields, the top-10 / top-3 slices and the conditional sections.

Modules: `Wrappers` (Option), `JsString` (the JavaScript string behaviour the
program relies on — `trim`, one-character `split`, `||` on strings and the
printing of an integer in a template literal — each with an inverse or an
independent characterisation; `IndexOf`, `Join` and `ParseInt` are helpers of
the model that define and check those operations),
`Analysis` (the result types of `types.ts`), `RadialScore`, `Dashboard`, `App`.

Conventions: fields the renderer guards with `||` or `&&` may be missing at run
time and are `Option`s; scores are `int`; colours and CSS classes are opaque
strings with the program's values. The network call and the file reader are
not modelled: an analyze step receives the outcome as a parameter,
and a file carries the data URL the browser's reader would produce for it.

Two behaviours worth knowing: reset keeps the active tab, so it reaches the
opening state only from the upload tab (`App.ResetReachesInitialIff`); and a
score of 0 is drawn in the `color` prop's blue, not in its red tier
(`RadialScore.ZeroScoreQuirk`).

## Model

| member | source | states |
|---|---|---|
| JsString.TrimStart | App.tsx:69 | the leading-whitespace strip of `trim` leaves a suffix that does not start with whitespace and removes only whitespace |
| JsString.TrimEnd | App.tsx:69 | the trailing-whitespace strip of `trim` leaves a prefix that does not end with whitespace and removes only whitespace |
| JsString.TrimEmptyIffBlank | App.tsx:69 | `text.trim()` is empty (falsy) exactly when every character of the text is ECMAScript whitespace or a line terminator |
| JsString.IndexOf | App.tsx:51 | the position found holds the separator and no earlier position does |
| JsString.Split | App.tsx:51 | `split` on one character yields at least one piece and no piece contains the separator |
| JsString.SplitThenJoin | App.tsx:51 | joining the pieces of a split with the separator gives back the original string |
| JsString.SplitAtFirst | App.tsx:51 | a separator-free head followed by the separator splits off as the first piece |
| JsString.JoinThenSplit | App.tsx:51 | splitting a join of separator-free pieces gives back exactly those pieces |
| JsString.FirstSegment | components/Dashboard.tsx:17 | `split(' ')[0]` is the prefix before the first space, or the whole string when there is no space |
| JsString.SecondSegment | App.tsx:51 | `split(',')[1]` is defined exactly when a comma occurs and contains no comma |
| JsString.OrElse | components/Dashboard.tsx:40 | `a || fallback` on a string keeps a present non-empty string and gives the fallback for a missing or empty one |
| JsString.NatDigits | components/RadialScore.tsx:44 | a non-negative integer is written as a non-empty digit string without a leading zero |
| JsString.NatDigitsValue | components/RadialScore.tsx:44 | reading the digits written for a number gives the number back |
| JsString.DecimalString | components/RadialScore.tsx:44 | an integer prints as a minus sign exactly when negative, then non-empty digits with no leading zero ("0" alone for zero) |
| JsString.DecimalRoundTrip | components/RadialScore.tsx:44 | the decimal text of any integer, sign included, parses back to that integer |
| RadialScore.ScoreColor | components/RadialScore.tsx:17-21 | green iff the score is at least 80, orange iff 60 to 79, red iff below 60, with exact boundaries |
| RadialScore.FinalColor | components/RadialScore.tsx:10-23 | a zero score takes the `color` prop, defaulting to #2563eb; every other score takes its tier colour |
| RadialScore.ZeroScoreQuirk | components/RadialScore.tsx:23 | a zero score with no colour prop is blue although its tier colour is red |
| RadialScore.GaugeData | components/RadialScore.tsx:11-14 | two slices, the first the score, the two summing to 100 |
| RadialScore.CentreLabel | components/RadialScore.tsx:44 | the label is the score's canonical decimal text (sign only when negative, no leading zero) followed by '%', and what precedes the '%' reads back as the score |
| RadialScore.Render | components/RadialScore.tsx:10-55 | the gauge shows the two slices, the score's fill, the grey rest, the centre label, the "ATS Score" title and the caption |
| Dashboard.ShortLabel | components/Dashboard.tsx:17 | the `name` of a chart row (computed, though the chart draws `fullName`) is the role's text before its first space, or all of it, followed by "..." |
| Dashboard.RoleChartData | components/Dashboard.tsx:16-20 | one row per suggestion in the same order, keeping the full role name and the match percentage |
| Dashboard.RoleChartDataAppend | components/Dashboard.tsx:16-20 | the chart of a concatenation is the concatenation of the charts, so no row is reordered |
| Dashboard.BarFills | components/Dashboard.tsx:239-241 | a bar is highlighted iff it is the first one; every other bar is light |
| Dashboard.FormatColor | components/Dashboard.tsx:22-27 | "High" iff green classes, "Medium" iff orange classes, any other string (Low included) iff red classes |
| Dashboard.ScoreOrZero | components/Dashboard.tsx:101 | `score || 0` shows a present score and 0 for a missing one |
| Dashboard.Take | components/Dashboard.tsx:186 | `slice(0, n)` is the first min(n, length) elements in order |
| Dashboard.ShownIfPresent | components/Dashboard.tsx:42-47 | the current role and email are shown iff present and non-empty |
| Dashboard.GrammarSection | components/Dashboard.tsx:158-172 | the grammar section is rendered iff the issues are present and non-empty, and then lists all of them |
| Dashboard.MissingSkillsArea | components/Dashboard.tsx:197-203 | the placeholder appears iff the list is empty; otherwise every missing skill is shown in order |
| Dashboard.Render | components/Dashboard.tsx:14-296 | every field of the dashboard view is the matching projection of the result: fallbacks, gauge, badges, top 10 skills, top 3 roles, and the pass-through texts, bullets and roadmap |
| Dashboard.RenderFullyPopulated | components/Dashboard.tsx:40-123 | name and the impact/action-verb explanations are never empty and the missing-skills area is never an empty region, missing sub-scores read 0, the keyword explanation is shown as given |
| Dashboard.PresentTextShownAsGiven | components/Dashboard.tsx:40-123 | a name or impact/action-verb explanation that is present and non-empty is shown exactly as given, whitespace-only text included, since the fallback replaces only missing or empty text |
| Dashboard.RoleCardsLeadTheChart | components/Dashboard.tsx:239-252 | the role cards are the first min(3, n) bars in order and the highlighted bar is the first card |
| App.AdmitFile | App.tsx:19-24 | a file over 5 MiB only sets "File size exceeds 5MB limit."; any other file, exactly 5 MiB included, is selected and the error cleared |
| App.HandleFileChange | App.tsx:16-26 | the picker offers its first file to the size guard and ignores an empty selection |
| App.HandleDrop | App.tsx:32-43 | the drop zone offers its first file to the size guard and ignores an empty drop |
| App.PickerAndDropAgree | App.tsx:16-43 | picking and dropping the same files give the same state; a rejected file leaves the selection unchanged |
| App.ExtractBase64 | App.tsx:51 | the payload is defined iff the data URL holds a comma, and contains no comma |
| App.ExtractBase64OfDataUrl | App.tsx:50-51 | stripping the prefix of a reader-built data URL recovers the payload |
| App.ExtractBase64Segment | App.tsx:51 | for `head,payload,tail` with comma-free head and payload the result is the payload, whatever the tail |
| App.ExtractBase64Pair | App.tsx:51 | for `head,payload` with comma-free head and payload the result is the payload |
| App.FailureMessage | App.tsx:77 | a failure shows its own non-empty message, otherwise "Something went wrong. Please try again." |
| App.Analyze | App.tsx:59-81 | exactly one request iff the active tab has usable input (a file, or non-blank text sent untrimmed); otherwise the no-input error and no request; success stores the result, failure the message; inputs and tab kept, loading off |
| App.HandleAnalyze | App.tsx:59-81 | the step-by-step handler (loading on, error cleared, dispatch, outcome, loading off) ends in the same state and request as the atomic transition |
| App.Demo | App.tsx:83-111 | the demo selects the text tab, pastes the sample resume and clears the error, leaving file and result alone |
| App.Reset | App.tsx:113-118 | reset clears result, file, text and error and keeps the tab and the loading flag |
| App.ResetReachesInitialIff | App.tsx:113-118 | from a settled state reset returns to the opening state iff the upload tab is active |
| App.WhitespaceEnablesButIsRejected | App.tsx:244 | any non-empty whitespace-only text in the text tab enables the analyze button, yet analyze rejects it with the no-input error |
| App.DisabledImpliesRejected | App.tsx:244 | whenever the button is disabled while not loading, analyze would make no request and show the no-input error |
| App.EnabledButRejectedIffBlank | App.tsx:64-74 | in the text tab with no file, the button is enabled while analyze rejects iff the text is non-empty but blank |
| App.DemoThenAnalyze | App.tsx:83-111 | after the demo (offered only while not loading) the button is enabled and analyze sends the sample text, a successful outcome completing the analysis |
| App.UploadTabIgnoresText | App.tsx:64-74 | after switching to the upload tab with no file, analyze rejects whatever text is waiting |
| App.TextTabIgnoresFile | App.tsx:64-74 | after switching to the text tab with blank text, analyze rejects even when a file is selected |
| App.Step | App.tsx:146-271 | every control's handler keeps the page settled; the file changes only by picker, drop, remove-file or reset, the text only by editing, clear, demo or reset, the tab only by the tab buttons or demo, the result only by analyze or reset |
| App.RunKeepsSettled | App.tsx:16-118 | after any sequence of user actions from a settled state the page is settled |
| App.CurrentScreen | App.tsx:120-122 | the dashboard is shown iff a result is held, rendering that result |

## Left out

- `services/geminiService.ts`, the client of the hosted model: it is replaced by the `Outcome` parameter of `App.Analyze`; its missing-key errors ("API Key is missing. Please set it in the environment." for files, "API Key is missing." for text), empty-response error and JSON parsing all reach the page as a `Failure` with their message.
- The browser file reader inside `convertFileToBase64`: a file carries the data URL it would produce; a read failure is a `Failure` with no message, for which the model still records the file request it did not make.
- `components/Roadmap.tsx`: markup that lists the three roadmap horizons; the dashboard view passes the roadmap through unchanged.
- Rendering, charts, icons, layout and CSS beyond the opaque colour strings; the file size shown in KB (a floating-point `toFixed`); the error banner's markup; `handleDragOver`, which only cancels the browser default.
- JavaScript number semantics: scores are integers, so NaN and fractional scores are not modelled, nor the exponent form JavaScript prints for integers of magnitude 10^21 or more (such as `1e+21` and `-1e+21`).
- Dashboard.RenderFullyPopulated: the header and explanation fallbacks replace only a missing or empty value, as `||` does, so a whitespace-only name or explanation is displayed as given; the lemma promises non-empty text, not non-blank text.
- `yearsOfExperience` is an integer, although the response schema allows any number and the header shows it as given (so "4.5 Years Exp." can appear).
- The response is parsed with an unchecked cast: `Success` always carries a complete result, so the model does not cover a `null` body (stored as no result, leaving the intake screen without an error) or a result missing a required part such as the roadmap (stored, then failing while rendering, outside the analyze handler's error handling).
- React re-rendering and the asynchronous suspension inside analyze: `App.Analyze` applies the outcome atomically and `App.HandleAnalyze` runs the handler's steps in sequence.
- A `null` file list and an empty one behave alike in both file handlers and are both the empty sequence.
- The picker's `accept` filter for PDF, JPEG and PNG is a browser hint that the code never checks, so the model does not check the media type either.

=== FILE: analysis.dfy ===
/** The analysis result returned by the hosted model, as the front-end reads
    it. Fields the renderer guards with `||` or `&&` may be missing at run
    time and are `Option`s; every other field is taken as present. Scores are
    integers. */
module Analysis {
  import opened Wrappers

  datatype ExtractedData = ExtractedData(
    name: Option<string>,
    email: Option<string>,
    currentRole: Option<string>,
    yearsOfExperience: int,
    skills: seq<string>,
    education: seq<string>)

  /** The ATS breakdown. `formatQuality` is meant to be "Low", "Medium" or
      "High" and `skillAlignment` "Poor", "Good" or "Excellent", but the
      renderer accepts any string, so both are plain strings here. */
  datatype AtsScore = AtsScore(
    totalScore: int,
    keywordMatchScore: int,
    keywordMatchExplanation: string,
    formatQuality: string,
    formatQualityExplanation: string,
    skillAlignment: string,
    skillAlignmentExplanation: string,
    quantifiableImpactScore: Option<int>,
    quantifiableImpactExplanation: Option<string>,
    actionVerbsScore: Option<int>,
    actionVerbsExplanation: Option<string>,
    grammarIssues: Option<seq<string>>)

  datatype BulletRewrite = BulletRewrite(original: string, improved: string, explanation: string)

  datatype ResumeImprovements = ResumeImprovements(
    rewrittenBullets: seq<BulletRewrite>,
    missingSkills: seq<string>,
    professionalSummary: string)

  datatype JobRoleSuggestion = JobRoleSuggestion(role: string, matchPercentage: int, reason: string)

  /** Advice in three horizons: 0-3 months, 3-6 months, 6+ months. */
  datatype CareerRoadmap = CareerRoadmap(shortTerm: seq<string>, mediumTerm: seq<string>, longTerm: seq<string>)

  /** A pre-formatted salary range, not a number. */
  datatype SalaryPrediction = SalaryPrediction(estimatedSalary: string)

  datatype AnalysisResult = AnalysisResult(
    extractedData: ExtractedData,
    atsScore: AtsScore,
    resumeImprovements: ResumeImprovements,
    jobRoleSuggestions: seq<JobRoleSuggestion>,
    careerRoadmap: CareerRoadmap,
    finalSummary: string,
    salaryPrediction: SalaryPrediction)
}

=== FILE: app.dfy ===
/** The intake screen: the application state, the handlers that change it,
    and the analyze step with the network call replaced by its outcome. */
module App {
  import opened Wrappers
  import opened Analysis
  import JsString
  import Dashboard

  /** 5 MiB, the largest file the picker and the drop zone accept. */
  const MaxFileSize: nat := 5 * 1024 * 1024

  const SizeError: string := "File size exceeds 5MB limit."
  const NoInputError: string := "Please select a file or paste your resume text."
  const GenericError: string := "Something went wrong. Please try again."

  /** The sample resume the demo button pastes. */
  const DemoResume: string :=
    "John Doe\n" +
    "Software Engineer | San Francisco, CA | john.doe@example.com\n" +
    "\n" +
    "SUMMARY\n" +
    "Passionate Full Stack Developer with 4 years of experience building scalable web applications. Proficient in JavaScript, React, Node.js, and AWS. Proven track record of improving site performance and leading cross-functional teams.\n" +
    "\n" +
    "EXPERIENCE\n" +
    "Tech Solutions Inc. - Senior Developer (2021 - Present)\n" +
    "- Developed a new e-commerce platform using Next.js, increasing sales by 20%.\n" +
    "- Optimized database queries, reducing load times by 40%.\n" +
    "- Led a team of 3 junior developers.\n" +
    "\n" +
    "Creative Agency - Web Developer (2019 - 2021)\n" +
    "- Built responsive websites for 10+ clients using HTML, CSS, and jQuery.\n" +
    "- Collaborated with designers to implement pixel-perfect UIs.\n" +
    "\n" +
    "SKILLS\n" +
    "- Languages: JavaScript, TypeScript, Python, SQL\n" +
    "- Frameworks: React, Vue.js, Express, NestJS\n" +
    "- Tools: Git, Docker, AWS, Jenkins\n" +
    "- Soft Skills: Leadership, Communication, Problem Solving\n" +
    "\n" +
    "EDUCATION\n" +
    "B.S. Computer Science - University of Technology (2015 - 2019)\n"

  datatype Tab = Upload | Text

  /** A browser file: its name, size in bytes, media type, and the data URL
      ("data:<type>;base64,<payload>") the browser's reader produces for it. */
  datatype File = File(name: string, size: nat, mimeType: string, dataUrl: string)

  datatype AppState = AppState(
    result: Option<AnalysisResult>,
    loading: bool,
    error: Option<string>,
    activeTab: Tab,
    textInput: string,
    selectedFile: Option<File>)

  /** The state the page opens in. */
  const Initial: AppState := AppState(None, false, None, Upload, "", None)

  /** Offers one file to the state: a file over 5 MiB only sets the size
      error; any other file (exactly 5 MiB included) becomes the selected
      file and clears the error. */
  function AdmitFile(s: AppState, file: File): (t: AppState)
    ensures file.size > MaxFileSize ==> t == s.(error := Some(SizeError))
    ensures file.size <= MaxFileSize ==> t == s.(selectedFile := Some(file), error := None)
  {
    if file.size > MaxFileSize then s.(error := Some(SizeError))
    else s.(selectedFile := Some(file), error := None)
  }

  /** The file picker's change handler: only the first chosen file counts,
      and an empty (or missing) file list changes nothing. */
  function HandleFileChange(s: AppState, files: seq<File>): (t: AppState)
    ensures |files| == 0 ==> t == s
    ensures |files| > 0 ==> t == AdmitFile(s, files[0])
  {
    if |files| > 0 then AdmitFile(s, files[0]) else s
  }

  /** The drop zone's handler, a second copy of the picker's logic. */
  function HandleDrop(s: AppState, files: seq<File>): (t: AppState)
    ensures |files| == 0 ==> t == s
    ensures |files| > 0 ==> t == AdmitFile(s, files[0])
  {
    if |files| > 0 then AdmitFile(s, files[0]) else s
  }

  /** Picking and dropping the same files have the same effect. */
  lemma PickerAndDropAgree(s: AppState, files: seq<File>)
    ensures HandleFileChange(s, files) == HandleDrop(s, files)
    ensures |files| > 0 && files[0].size > MaxFileSize ==>
      HandleDrop(s, files).selectedFile == s.selectedFile && HandleDrop(s, files).error == Some(SizeError)
  {
  }

  /** The payload the reader's data URL carries: `dataUrl.split(',')[1]`,
      undefined (None) when there is no comma. */
  function ExtractBase64(dataUrl: string): (b: Option<string>)
    ensures b.Some? <==> ',' in dataUrl
    ensures b.Some? ==> ',' !in b.value
  {
    JsString.SecondSegment(dataUrl, ',')
  }

  /** The data URL the browser's reader builds for a payload. */
  function DataUrl(mimeType: string, payload: string): string {
    "data:" + mimeType + ";base64," + payload
  }

  /** Stripping the prefix recovers the payload when neither the media type
      nor the payload holds a comma (base64 never does). */
  lemma ExtractBase64OfDataUrl(mimeType: string, payload: string)
    requires ',' !in mimeType && ',' !in payload
    ensures ExtractBase64(DataUrl(mimeType, payload)) == Some(payload)
  {
    var prefix := "data:" + mimeType + ";base64";
    assert DataUrl(mimeType, payload) == JsString.Join([prefix, payload], ',');
    assert ',' !in prefix by {
      assert prefix == "data:" + mimeType + ";base64";
      forall i | 0 <= i < |prefix| ensures prefix[i] != ',' {
        if 5 <= i < 5 + |mimeType| {
          assert prefix[i] == mimeType[i - 5];
        }
      }
    }
    JsString.JoinThenSplit([prefix, payload], ',');
  }

  /** More generally the payload is the text between the first and the second
      comma, whatever follows it. */
  lemma ExtractBase64Segment(head: string, payload: string, tail: string)
    requires ',' !in head && ',' !in payload
    ensures ExtractBase64(head + "," + payload + "," + tail) == Some(payload)
  {
    var rest := payload + [','] + tail;
    var s := head + [','] + rest;
    assert head + "," + payload + "," + tail == s;
    JsString.SplitAtFirst(head, ',', rest);
    JsString.SplitAtFirst(payload, ',', tail);
    var parts := JsString.Split(s, ',');
    assert parts == [head] + ([payload] + JsString.Split(tail, ','));
    assert parts[1] == payload;
  }

  /** With a single comma the payload is everything after it. */
  lemma ExtractBase64Pair(head: string, payload: string)
    requires ',' !in head && ',' !in payload
    ensures ExtractBase64(head + "," + payload) == Some(payload)
  {
    assert head + "," + payload == JsString.Join([head, payload], ',');
    JsString.JoinThenSplit([head, payload], ',');
  }

  /** One call to the hosted model: the file variant with the payload and
      media type, or the text variant with the text as typed. */
  datatype Request = FileRequest(base64: Option<string>, mimeType: string) | TextRequest(text: string)

  /** How the call (or the file read before it) settled. */
  datatype Outcome = Success(data: AnalysisResult) | Failure(message: Option<string>)

  /** The state after analyze, and the request it made, if any. */
  datatype Analyzed = Analyzed(state: AppState, request: Option<Request>)

  /** The message shown for a failure: its own message, or the generic one
      when it has none (or an empty one). */
  function FailureMessage(message: Option<string>): (m: string)
    ensures m != ""
    ensures message.Some? && message.value != "" ==> m == message.value
    ensures message.None? || message.value == "" ==> m == GenericError
  {
    JsString.OrElse(message, GenericError)
  }

  /** The analyze handler as one atomic transition. The upload tab with a
      selected file makes the file request; the text tab with text that is not
      blank makes the text request; anything else (even with input waiting
      in the other tab) is rejected without a request. A request's outcome
      lands as the result or as an error; the inputs and the tab are always
      kept, and loading is off afterwards. */
  function Analyze(s: AppState, outcome: Outcome): (a: Analyzed)
    ensures !a.state.loading
    ensures a.state.activeTab == s.activeTab
    ensures a.state.textInput == s.textInput && a.state.selectedFile == s.selectedFile
    ensures (a.request.Some? && a.request.value.FileRequest?) <==> s.activeTab == Upload && s.selectedFile.Some?
    ensures (a.request.Some? && a.request.value.TextRequest?) <==> s.activeTab == Text && !JsString.Blank(s.textInput)
    ensures a.request.Some? && a.request.value.FileRequest? ==>
      a.request.value == FileRequest(ExtractBase64(s.selectedFile.value.dataUrl), s.selectedFile.value.mimeType)
    ensures a.request.Some? && a.request.value.TextRequest? ==> a.request.value.text == s.textInput
    ensures a.request.None? ==> a.state.error == Some(NoInputError) && a.state.result == s.result
    ensures a.request.Some? && outcome.Success? ==> a.state.result == Some(outcome.data) && a.state.error.None?
    ensures a.request.Some? && outcome.Failure? ==>
      a.state.result == s.result && a.state.error == Some(FailureMessage(outcome.message))
  {
    var t := s.(loading := false, error := None);
    var request :=
      if s.activeTab == Upload && s.selectedFile.Some? then
        Some(FileRequest(ExtractBase64(s.selectedFile.value.dataUrl), s.selectedFile.value.mimeType))
      else if s.activeTab == Text && JsString.Trim(s.textInput) != "" then
        Some(TextRequest(s.textInput))
      else None;
    JsString.TrimEmptyIffBlank(s.textInput);
    if request.None? then Analyzed(t.(error := Some(NoInputError)), None)
    else match outcome
      case Success(data) => Analyzed(t.(result := Some(data)), request)
      case Failure(message) => Analyzed(t.(error := Some(FailureMessage(message))), request)
  }

  /** The analyze handler step by step, as `handleAnalyze` runs it: loading on and
      the error cleared, then at most one request, then the outcome, and
      loading off in every case. It ends where the atomic transition does. */
  method HandleAnalyze(s: AppState, outcome: Outcome) returns (t: AppState, request: Option<Request>)
    ensures Analyzed(t, request) == Analyze(s, outcome)
  {
    t := s.(loading := true);
    t := t.(error := None);
    request := None;
    if t.activeTab == Upload && t.selectedFile.Some? {
      var base64 := ExtractBase64(t.selectedFile.value.dataUrl);
      request := Some(FileRequest(base64, t.selectedFile.value.mimeType));
    } else if t.activeTab == Text && JsString.Trim(t.textInput) != "" {
      request := Some(TextRequest(t.textInput));
    } else {
      t := t.(error := Some(NoInputError));
    }
    if request.Some? {
      match outcome {
        case Success(data) =>
          t := t.(result := Some(data));
        case Failure(message) =>
          t := t.(error := Some(FailureMessage(message)));
      }
    }
    t := t.(loading := false);
  }

  /** The demo button: switches to the text tab, pastes the sample resume and
      clears the error, leaving the file and the result alone. */
  function Demo(s: AppState): (t: AppState)
    ensures t.activeTab == Text && t.textInput == DemoResume && t.error.None?
    ensures t.selectedFile == s.selectedFile && t.result == s.result && t.loading == s.loading
  {
    s.(activeTab := Text, textInput := DemoResume, error := None)
  }

  /** The reset button: drops the result, the file, the text and the error;
      the tab and the loading flag are left as they were. */
  function Reset(s: AppState): (t: AppState)
    ensures t.result.None? && t.selectedFile.None? && t.textInput == "" && t.error.None?
    ensures t.activeTab == s.activeTab && t.loading == s.loading
  {
    s.(result := None, selectedFile := None, textInput := "", error := None)
  }

  /** Reset lands exactly on the opening state only from the upload tab: after
      the demo, for one, the text tab stays selected. */
  lemma ResetReachesInitialIff(s: AppState)
    requires !s.loading
    ensures Reset(s) == Initial <==> s.activeTab == Upload
  {
  }

  /** The analyze button is disabled while loading, or when there is neither a
      file nor any text. The text test is not trimmed. */
  predicate AnalyzeDisabled(s: AppState) {
    s.loading || (s.selectedFile.None? && s.textInput == "")
  }

  /** Whitespace-only text (spaces, tabs, newlines, no-break spaces, ...)
      enables the button, yet analyze rejects it. */
  lemma WhitespaceEnablesButIsRejected(s: AppState, outcome: Outcome)
    requires !s.loading && s.activeTab == Text
    requires s.textInput != "" && JsString.Blank(s.textInput)
    ensures !AnalyzeDisabled(s)
    ensures Analyze(s, outcome).request.None?
    ensures Analyze(s, outcome).state.error == Some(NoInputError)
  {
  }

  /** A disabled button never guards a request: whenever the button is
      disabled for want of input, analyze would reject the click anyway. */
  lemma DisabledImpliesRejected(s: AppState, outcome: Outcome)
    requires !s.loading && AnalyzeDisabled(s)
    ensures Analyze(s, outcome).request.None?
    ensures Analyze(s, outcome).state.error == Some(NoInputError)
  {
  }

  /** In the text tab with no file the button and analyze disagree exactly
      on non-empty blank text: the button is enabled and analyze rejects iff
      the text is non-empty but blank. */
  lemma EnabledButRejectedIffBlank(s: AppState, outcome: Outcome)
    requires !s.loading && s.activeTab == Text && s.selectedFile.None?
    ensures (!AnalyzeDisabled(s) && Analyze(s, outcome).request.None?)
            <==> s.textInput != "" && JsString.Blank(s.textInput)
  {
  }

  /** The demo text is accepted: analyzing right after the demo sends it as a
      text request, and a well-formed response completes the analysis. */
  lemma DemoThenAnalyze(s: AppState, data: AnalysisResult)
    requires !s.loading
    ensures !AnalyzeDisabled(Demo(s))
    ensures Analyze(Demo(s), Success(data)).request == Some(TextRequest(DemoResume))
    ensures Analyze(Demo(s), Success(data)).state.result == Some(data)
    ensures Analyze(Demo(s), Success(data)).state.error.None?
  {
    assert !JsString.IsJsWhitespace(DemoResume[0]);
  }

  /** The other handlers the intake screen wires up: the two tab buttons, the
      text area, its clear button and the remove-file button. */
  function ChooseTab(s: AppState, tab: Tab): AppState {
    s.(activeTab := tab)
  }

  function EditText(s: AppState, text: string): AppState {
    s.(textInput := text)
  }

  function RemoveFile(s: AppState): AppState {
    s.(selectedFile := None)
  }

  /** Only the active tab's input is used: switching to the upload tab with
      no file makes analyze reject whatever text is waiting. */
  lemma UploadTabIgnoresText(s: AppState, outcome: Outcome)
    requires s.selectedFile.None?
    ensures Analyze(ChooseTab(s, Upload), outcome).request.None?
    ensures Analyze(ChooseTab(s, Upload), outcome).state.error == Some(NoInputError)
  {
  }

  /** Symmetrically, switching to the text tab with blank text makes analyze
      reject even when a file is selected. */
  lemma TextTabIgnoresFile(s: AppState, outcome: Outcome)
    requires JsString.Blank(s.textInput)
    ensures Analyze(ChooseTab(s, Text), outcome).request.None?
    ensures Analyze(ChooseTab(s, Text), outcome).state.error == Some(NoInputError)
  {
  }

  /** A user action, with the outcome of the network call for analyze. */
  datatype Event =
    | PickFiles(files: seq<File>)
    | DropFiles(files: seq<File>)
    | AnalyzeClicked(outcome: Outcome)
    | DemoClicked
    | ResetClicked
    | TabClicked(tab: Tab)
    | TextEdited(text: string)
    | ClearClicked
    | RemoveFileClicked

  /** The handler each control is wired to. Every handler keeps a settled
      state settled, and each part of the state changes only through the
      controls that own it. */
  function Step(s: AppState, e: Event): (t: AppState)
    ensures Settled(s) ==> Settled(t)
    ensures t.selectedFile != s.selectedFile ==>
      e.PickFiles? || e.DropFiles? || e.RemoveFileClicked? || e.ResetClicked?
    ensures t.textInput != s.textInput ==>
      e.TextEdited? || e.ClearClicked? || e.DemoClicked? || e.ResetClicked?
    ensures t.activeTab != s.activeTab ==> e.TabClicked? || e.DemoClicked?
    ensures t.result != s.result ==> e.AnalyzeClicked? || e.ResetClicked?
  {
    match e
    case PickFiles(files) => HandleFileChange(s, files)
    case DropFiles(files) => HandleDrop(s, files)
    case AnalyzeClicked(outcome) => Analyze(s, outcome).state
    case DemoClicked => Demo(s)
    case ResetClicked => Reset(s)
    case TabClicked(tab) => ChooseTab(s, tab)
    case TextEdited(text) => EditText(s, text)
    case ClearClicked => EditText(s, "")
    case RemoveFileClicked => RemoveFile(s)
  }

  function Run(s: AppState, events: seq<Event>): AppState
    decreases |events|
  {
    if events == [] then s else Run(Step(s, events[0]), events[1..])
  }

  /** Between user actions nothing is loading, and the selected file, if any,
      is within the size limit. */
  predicate Settled(s: AppState) {
    !s.loading && (s.selectedFile.Some? ==> s.selectedFile.value.size <= MaxFileSize)
  }

  /** Whatever the user does from the opening state, the page never rests in
      a loading state and never holds a file over 5 MiB. */
  lemma {:induction false} RunKeepsSettled(s: AppState, events: seq<Event>)
    requires Settled(s)
    ensures Settled(Run(s, events))
    decreases |events|
  {
    if events != [] {
      RunKeepsSettled(Step(s, events[0]), events[1..]);
    }
  }

  /** Which screen is up: the dashboard once a result is held, the intake
      form otherwise. */
  datatype Screen = IntakeScreen | DashboardScreen(view: Dashboard.DashboardView)

  function CurrentScreen(s: AppState): (sc: Screen)
    ensures sc.DashboardScreen? <==> s.result.Some?
    ensures sc.DashboardScreen? ==> sc.view == Dashboard.Render(s.result.value)
  {
    if s.result.Some? then DashboardScreen(Dashboard.Render(s.result.value)) else IntakeScreen
  }
}

=== FILE: dashboard.dfy ===
/** The result dashboard as pure projections of an analysis result: what each
    panel shows, with the fallbacks the renderer applies to missing fields. */
module Dashboard {
  import opened Wrappers
  import opened Analysis
  import JsString
  import RadialScore

  const Ellipsis: string := "..."
  /** Bar fill of the best-fit role. */
  const HighlightFill: string := "#2563eb"
  /** Bar fill of every other role. */
  const LightFill: string := "#93c5fd"
  const GreenClasses: string := "text-green-600 bg-green-50 border-green-200"
  const OrangeClasses: string := "text-orange-600 bg-orange-50 border-orange-200"
  const RedClasses: string := "text-red-600 bg-red-50 border-red-200"
  const DefaultName: string := "Candidate"
  const NoData: string := "No data available."
  const NothingMissing: string := "No major skills missing for this role."
  const TopSkillCount: nat := 10
  const TopRoleCount: nat := 3

  /** One row of the role chart's data: a short label, the full role name
      (the key of the category axis and so of the tooltip) and the plotted
      match percentage. The short label is computed but the chart never
      draws it. */
  datatype RoleRow = RoleRow(name: string, fullName: string, matchPercentage: int)

  /** The short label of a role: the text before its first space (all of it
      when there is none) followed by an ellipsis. */
  function ShortLabel(role: string): (l: string)
    ensures |l| >= 3 && l[|l| - 3..] == Ellipsis
    ensures var w := l[..|l| - 3];
      && |w| <= |role| && w == role[..|w|]
      && ' ' !in w
      && (|w| == |role| || role[|w|] == ' ')
  {
    var w := JsString.FirstSegment(role, ' ');
    assert (w + Ellipsis)[..|w|] == w;
    w + Ellipsis
  }

  /** The role chart rows, one per suggestion and in the same order. */
  function RoleChartData(roles: seq<JobRoleSuggestion>): (rows: seq<RoleRow>)
    ensures |rows| == |roles|
    ensures forall i :: 0 <= i < |rows| ==>
      && rows[i].fullName == roles[i].role
      && rows[i].matchPercentage == roles[i].matchPercentage
      && rows[i].name == ShortLabel(roles[i].role)
  {
    if roles == [] then []
    else [RoleRow(ShortLabel(roles[0].role), roles[0].role, roles[0].matchPercentage)]
         + RoleChartData(roles[1..])
  }

  /** Building the chart commutes with concatenating suggestion lists: rows
      are computed one suggestion at a time and never reordered. */
  lemma {:induction false} RoleChartDataAppend(a: seq<JobRoleSuggestion>, b: seq<JobRoleSuggestion>)
    ensures RoleChartData(a + b) == RoleChartData(a) + RoleChartData(b)
  {
    if a != [] {
      assert (a + b)[1..] == a[1..] + b;
      RoleChartDataAppend(a[1..], b);
    } else {
      assert a + b == b;
    }
  }

  /** The bar fills: the first bar is highlighted, every other one is light. */
  function BarFills(rows: seq<RoleRow>): (fills: seq<string>)
    ensures |fills| == |rows|
    ensures forall i :: 0 <= i < |fills| ==> (fills[i] == HighlightFill <==> i == 0)
    ensures forall i :: 0 <= i < |fills| ==> (fills[i] == LightFill <==> i != 0)
  {
    seq(|rows|, i => if i == 0 then HighlightFill else LightFill)
  }

  /** The badge classes of a format-quality rating: green for "High", orange
      for "Medium", red for anything else ("Low" included). */
  function FormatColor(quality: string): (c: string)
    ensures c == GreenClasses <==> quality == "High"
    ensures c == OrangeClasses <==> quality == "Medium"
    ensures c == RedClasses <==> quality != "High" && quality != "Medium"
  {
    match quality
    case "High" => GreenClasses
    case "Medium" => OrangeClasses
    case _ => RedClasses
  }

  /** `score || 0`: a missing score shows as 0 (a present 0 does too). */
  function ScoreOrZero(score: Option<int>): (r: int)
    ensures score.Some? ==> r == score.value
    ensures score.None? ==> r == 0
  {
    score.GetOr(0)
  }

  /** `xs.slice(0, n)`: the first `n` elements, or all of them when there are
      fewer. */
  function Take<T>(xs: seq<T>, n: nat): (r: seq<T>)
    ensures |r| == (if n <= |xs| then n else |xs|)
    ensures r == xs[..|r|]
  {
    if n <= |xs| then xs[..n] else xs
  }

  /** A header detail guarded by `value && ...`: shown only when present and
      non-empty. */
  function ShownIfPresent(value: Option<string>): (r: Option<string>)
    ensures r.Some? <==> value.Some? && value.value != ""
    ensures r.Some? ==> r.value == value.value
  {
    if value.Some? && value.value != "" then value else None
  }

  /** The grammar list, or None when the section is not rendered at all:
      it is rendered exactly when the issues are present and non-empty. */
  function GrammarSection(issues: Option<seq<string>>): (r: Option<seq<string>>)
    ensures r.Some? <==> issues.Some? && |issues.value| > 0
    ensures r.Some? ==> r.value == issues.value
  {
    if issues.Some? && |issues.value| > 0 then issues else None
  }

  datatype MissingSkills = Placeholder(text: string) | Chips(skills: seq<string>)

  /** The missing-skills area: a placeholder line when the list is empty,
      every skill in order otherwise. */
  function MissingSkillsArea(skills: seq<string>): (r: MissingSkills)
    ensures r.Placeholder? <==> |skills| == 0
    ensures r.Placeholder? ==> r.text == NothingMissing
    ensures r.Chips? ==> r.skills == skills && |r.skills| > 0
  {
    if |skills| > 0 then Chips(skills) else Placeholder(NothingMissing)
  }

  /** One breakdown bar: the score shown as "n/100" and as a width of n%,
      with its explanation underneath. */
  datatype Metric = Metric(score: int, explanation: string)

  datatype DashboardView = DashboardView(
    name: string,
    currentRole: Option<string>,
    email: Option<string>,
    yearsOfExperience: int,
    gauge: RadialScore.Gauge,
    keywordMatch: Metric,
    impact: Metric,
    actionVerbs: Metric,
    formatQuality: string,
    formatClasses: string,
    formatExplanation: string,
    skillAlignment: string,
    skillAlignmentExplanation: string,
    grammarIssues: Option<seq<string>>,
    topSkills: seq<string>,
    missingSkills: MissingSkills,
    salary: string,
    roleRows: seq<RoleRow>,
    roleFills: seq<string>,
    roleDetails: seq<JobRoleSuggestion>,
    professionalSummary: string,
    bullets: seq<BulletRewrite>,
    roadmap: CareerRoadmap)

  /** Everything the dashboard displays for an analysis result. */
  function Render(data: AnalysisResult): (v: DashboardView)
    ensures v.name == JsString.OrElse(data.extractedData.name, DefaultName)
    ensures v.currentRole == ShownIfPresent(data.extractedData.currentRole)
    ensures v.yearsOfExperience == data.extractedData.yearsOfExperience
    ensures v.email == ShownIfPresent(data.extractedData.email)
    ensures v.gauge == RadialScore.Render(data.atsScore.totalScore, data.atsScore.skillAlignment + " Match", None)
    ensures v.keywordMatch == Metric(data.atsScore.keywordMatchScore, data.atsScore.keywordMatchExplanation)
    ensures v.impact == Metric(ScoreOrZero(data.atsScore.quantifiableImpactScore),
                               JsString.OrElse(data.atsScore.quantifiableImpactExplanation, NoData))
    ensures v.actionVerbs == Metric(ScoreOrZero(data.atsScore.actionVerbsScore),
                                    JsString.OrElse(data.atsScore.actionVerbsExplanation, NoData))
    ensures v.formatQuality == data.atsScore.formatQuality
    ensures v.formatClasses == FormatColor(data.atsScore.formatQuality)
    ensures v.formatExplanation == data.atsScore.formatQualityExplanation
    ensures v.skillAlignment == data.atsScore.skillAlignment
    ensures v.skillAlignmentExplanation == data.atsScore.skillAlignmentExplanation
    ensures v.grammarIssues == GrammarSection(data.atsScore.grammarIssues)
    ensures v.topSkills == Take(data.extractedData.skills, TopSkillCount)
    ensures v.missingSkills == MissingSkillsArea(data.resumeImprovements.missingSkills)
    ensures v.roleRows == RoleChartData(data.jobRoleSuggestions)
    ensures v.roleFills == BarFills(v.roleRows)
    ensures v.roleDetails == Take(data.jobRoleSuggestions, TopRoleCount)
    ensures v.salary == data.salaryPrediction.estimatedSalary
    ensures v.professionalSummary == data.resumeImprovements.professionalSummary
    ensures v.bullets == data.resumeImprovements.rewrittenBullets
    ensures v.roadmap == data.careerRoadmap
  {
    var ed := data.extractedData;
    var ats := data.atsScore;
    var rows := RoleChartData(data.jobRoleSuggestions);
    DashboardView(
      JsString.OrElse(ed.name, DefaultName),
      ShownIfPresent(ed.currentRole),
      ShownIfPresent(ed.email),
      ed.yearsOfExperience,
      RadialScore.Render(ats.totalScore, ats.skillAlignment + " Match", None),
      Metric(ats.keywordMatchScore, ats.keywordMatchExplanation),
      Metric(ScoreOrZero(ats.quantifiableImpactScore), JsString.OrElse(ats.quantifiableImpactExplanation, NoData)),
      Metric(ScoreOrZero(ats.actionVerbsScore), JsString.OrElse(ats.actionVerbsExplanation, NoData)),
      ats.formatQuality,
      FormatColor(ats.formatQuality),
      ats.formatQualityExplanation,
      ats.skillAlignment,
      ats.skillAlignmentExplanation,
      GrammarSection(ats.grammarIssues),
      Take(ed.skills, TopSkillCount),
      MissingSkillsArea(data.resumeImprovements.missingSkills),
      data.salaryPrediction.estimatedSalary,
      rows,
      BarFills(rows),
      Take(data.jobRoleSuggestions, TopRoleCount),
      data.resumeImprovements.professionalSummary,
      data.resumeImprovements.rewrittenBullets,
      data.careerRoadmap)
  }

  /** Whatever fields are missing, the header name and the impact and
      action-verb explanations are never empty (a whitespace-only value is
      kept as given), the missing-skills area is never an empty region,
      and the optional scores read 0 when absent. The keyword explanation has
      no fallback and shows whatever the result holds. */
  lemma RenderFullyPopulated(data: AnalysisResult)
    ensures var v := Render(data);
      && v.name != ""
      && v.impact.explanation != ""
      && v.actionVerbs.explanation != ""
      && (data.atsScore.quantifiableImpactScore.None? ==> v.impact.score == 0)
      && (data.atsScore.actionVerbsScore.None? ==> v.actionVerbs.score == 0)
      && v.keywordMatch.explanation == data.atsScore.keywordMatchExplanation
      && (v.missingSkills.Placeholder? ==> v.missingSkills.text != "")
      && (v.missingSkills.Chips? ==> |v.missingSkills.skills| > 0)
  {
  }

  /** The fallbacks test for emptiness only: a present, non-empty name or
      explanation is shown exactly as given, even when it is only
      whitespace. */
  lemma PresentTextShownAsGiven(data: AnalysisResult)
    ensures var v := Render(data);
      && (data.extractedData.name.Some? && data.extractedData.name.value != "" ==>
            v.name == data.extractedData.name.value)
      && (data.atsScore.quantifiableImpactExplanation.Some? && data.atsScore.quantifiableImpactExplanation.value != "" ==>
            v.impact.explanation == data.atsScore.quantifiableImpactExplanation.value)
      && (data.atsScore.actionVerbsExplanation.Some? && data.atsScore.actionVerbsExplanation.value != "" ==>
            v.actionVerbs.explanation == data.atsScore.actionVerbsExplanation.value)
  {
  }

  /** The role cards are the first (up to three) bars of the chart, in the
      same order, and the highlighted bar is the first card. */
  lemma RoleCardsLeadTheChart(data: AnalysisResult)
    ensures var v := Render(data);
      && |v.roleDetails| <= |v.roleRows|
      && |v.roleDetails| == (if |data.jobRoleSuggestions| < 3 then |data.jobRoleSuggestions| else 3)
      && (forall i :: 0 <= i < |v.roleDetails| ==>
            v.roleDetails[i].role == v.roleRows[i].fullName
            && v.roleDetails[i].matchPercentage == v.roleRows[i].matchPercentage)
      && (|v.roleRows| > 0 ==> v.roleFills[0] == HighlightFill && v.roleRows[0].fullName == v.roleDetails[0].role)
  {
  }
}

=== FILE: js_string.dfy ===
/** The few JavaScript string operations the front-end relies on, written out
    with their ECMAScript meaning, each with an independent characterisation
    or an inverse. */
module JsString {
  import opened Wrappers

  /** ECMAScript WhiteSpace and LineTerminator code points: the characters
      `String.prototype.trim` removes from both ends. */
  predicate IsJsWhitespace(c: char) {
    || c == '\t' || c == '\U{000B}' || c == '\U{000C}' || c == ' '
    || c == '\U{00A0}' || c == '\U{FEFF}'
    || c == '\n' || c == '\r' || c == '\U{2028}' || c == '\U{2029}'
    || c == '\U{1680}' || ('\U{2000}' <= c <= '\U{200A}')
    || c == '\U{202F}' || c == '\U{205F}' || c == '\U{3000}'
  }

  /** `s` holds nothing but whitespace (the empty string included). */
  predicate Blank(s: string) {
    forall i :: 0 <= i < |s| ==> IsJsWhitespace(s[i])
  }

  lemma BlankPrepend(c: char, t: string)
    requires IsJsWhitespace(c) && Blank(t)
    ensures Blank([c] + t)
  {
  }

  lemma BlankAppend(t: string, c: char)
    requires Blank(t) && IsJsWhitespace(c)
    ensures Blank(t + [c])
  {
  }

  /** Drops leading whitespace: the result is a suffix of `s` that does not
      start with whitespace, and what was dropped is blank. */
  function TrimStart(s: string): (r: string)
    ensures |r| <= |s| && r == s[|s| - |r|..]
    ensures r == [] || !IsJsWhitespace(r[0])
    ensures Blank(s[..|s| - |r|])
  {
    if s != [] && IsJsWhitespace(s[0]) then
      var r := TrimStart(s[1..]);
      assert s[..|s| - |r|] == [s[0]] + s[1..][..|s| - 1 - |r|];
      BlankPrepend(s[0], s[1..][..|s| - 1 - |r|]);
      r
    else s
  }

  /** Drops trailing whitespace: the result is a prefix of `s` that does not
      end with whitespace, and what was dropped is blank. */
  function TrimEnd(s: string): (r: string)
    ensures |r| <= |s| && r == s[..|r|]
    ensures r == [] || !IsJsWhitespace(r[|r| - 1])
    ensures Blank(s[|r|..])
  {
    if s != [] && IsJsWhitespace(s[|s| - 1]) then
      var r := TrimEnd(s[..|s| - 1]);
      assert s[|r|..] == s[..|s| - 1][|r|..] + [s[|s| - 1]];
      BlankAppend(s[..|s| - 1][|r|..], s[|s| - 1]);
      r
    else s
  }

  /** `String.prototype.trim`. */
  function Trim(s: string): string {
    TrimEnd(TrimStart(s))
  }

  /** A trimmed string is empty exactly when the original is blank: this is
      what the truthiness test `text.trim()` decides. */
  lemma TrimEmptyIffBlank(s: string)
    ensures Trim(s) == [] <==> Blank(s)
  {
  }

  /** `s.indexOf(c)` for a character known to occur: the first position
      holding `c`. */
  function IndexOf(s: string, c: char): (k: nat)
    requires c in s
    ensures k < |s| && s[k] == c
    ensures c !in s[..k]
  {
    if s[0] == c then 0
    else
      assert c in s[1..] by {
        var j :| 0 <= j < |s| && s[j] == c;
        assert s[1..][j - 1] == c;
      }
      var k := IndexOf(s[1..], c);
      assert s[..k + 1] == [s[0]] + s[1..][..k];
      k + 1
  }

  /** `s.split(sep)` for a one-character separator: the pieces between
      consecutive occurrences of `sep`, always at least one. */
  function Split(s: string, sep: char): (parts: seq<string>)
    ensures |parts| >= 1
    ensures forall i :: 0 <= i < |parts| ==> sep !in parts[i]
    decreases |s|
  {
    if sep in s then
      var k := IndexOf(s, sep);
      [s[..k]] + Split(s[k + 1..], sep)
    else [s]
  }

  /** `parts.join(sep)`: the inverse of `Split`. */
  function Join(parts: seq<string>, sep: char): string
    requires |parts| >= 1
  {
    if |parts| == 1 then parts[0] else parts[0] + [sep] + Join(parts[1..], sep)
  }

  /** Splitting a string loses nothing: joining the pieces gives it back. */
  lemma {:induction false} SplitThenJoin(s: string, sep: char)
    ensures Join(Split(s, sep), sep) == s
    decreases |s|
  {
    if sep in s {
      var k := IndexOf(s, sep);
      var head, tail := s[..k], s[k + 1..];
      var rest := Split(tail, sep);
      SplitThenJoin(tail, sep);
      assert Split(s, sep) == [head] + rest;
      JoinCons(head, rest, sep);
      assert s == head + [sep] + tail;
    }
  }

  /** Joining a list with a head piece puts the separator after the head. */
  lemma JoinCons(head: string, rest: seq<string>, sep: char)
    requires |rest| >= 1
    ensures Join([head] + rest, sep) == head + [sep] + Join(rest, sep)
  {
    assert ([head] + rest)[1..] == rest;
  }

  /** Splitting at the first separator: a separator-free head is split off whole. */
  lemma SplitAtFirst(head: string, sep: char, rest: string)
    requires sep !in head
    ensures Split(head + [sep] + rest, sep) == [head] + Split(rest, sep)
  {
    var s := head + [sep] + rest;
    assert s[|head|] == sep;
    assert s[..|head|] == head;
    var k := IndexOf(s, sep);
    assert k == |head|;
    assert s[..k] == head;
    assert s[k + 1..] == rest;
  }

  /** Joining separator-free pieces and splitting again gives the pieces back. */
  lemma {:induction false} JoinThenSplit(parts: seq<string>, sep: char)
    requires |parts| >= 1
    requires forall i :: 0 <= i < |parts| ==> sep !in parts[i]
    ensures Split(Join(parts, sep), sep) == parts
  {
    if |parts| == 1 {
      assert sep !in parts[0];
    } else {
      JoinThenSplit(parts[1..], sep);
      SplitAtFirst(parts[0], sep, Join(parts[1..], sep));
      assert parts == [parts[0]] + parts[1..];
    }
  }

  /** `s.split(sep)[0]`: the text before the first `sep`, or all of `s`. */
  function FirstSegment(s: string, sep: char): (w: string)
    ensures |w| <= |s| && w == s[..|w|]
    ensures sep !in w
    ensures |w| == |s| || s[|w|] == sep
  {
    var parts := Split(s, sep);
    assert sep in s ==> parts[0] == s[..IndexOf(s, sep)];
    parts[0]
  }

  /** `s.split(sep)[1]`: the text between the first and the second `sep`,
      `undefined` (None) when `sep` does not occur. */
  function SecondSegment(s: string, sep: char): (r: Option<string>)
    ensures r.Some? <==> sep in s
    ensures r.Some? ==> sep !in r.value
  {
    var parts := Split(s, sep);
    if |parts| > 1 then Some(parts[1]) else None
  }

  /** JavaScript's `a || fallback` on a string that may be missing: empty and
      missing strings are both falsy. */
  function OrElse(a: Option<string>, fallback: string): (r: string)
    ensures a.Some? && a.value != "" ==> r == a.value
    ensures a.None? || a.value == "" ==> r == fallback
  {
    if a.Some? && a.value != "" then a.value else fallback
  }

  /** The decimal digit for `d`. */
  function DigitChar(d: nat): char
    requires d < 10
  {
    "0123456789"[d]
  }

  /** The value of a digit character. */
  function DigitValue(c: char): nat
    requires '0' <= c <= '9'
  {
    (c as int - '0' as int) as nat
  }

  predicate IsDigits(s: string) {
    forall i :: 0 <= i < |s| ==> '0' <= s[i] <= '9'
  }

  /** The decimal numeral of `n` without leading zeros. */
  function NatDigits(n: nat): (s: string)
    ensures |s| >= 1 && IsDigits(s)
    ensures s[0] == '0' ==> n == 0 && s == "0"
  {
    if n < 10 then [DigitChar(n)] else NatDigits(n / 10) + [DigitChar(n % 10)]
  }

  /** The value of a string of decimal digits. */
  function DigitsValue(s: string): nat
    requires IsDigits(s)
  {
    if s == [] then 0 else 10 * DigitsValue(s[..|s| - 1]) + DigitValue(s[|s| - 1])
  }

  /** Reading back a numeral gives the number it was written for. */
  lemma {:induction false} NatDigitsValue(n: nat)
    ensures DigitsValue(NatDigits(n)) == n
  {
    if n >= 10 {
      NatDigitsValue(n / 10);
      DigitsValueAppend(NatDigits(n / 10), n % 10);
    }
  }

  /** Appending a digit multiplies the value by ten and adds the digit. */
  lemma DigitsValueAppend(p: string, d: nat)
    requires IsDigits(p) && d < 10
    ensures IsDigits(p + [DigitChar(d)])
    ensures DigitsValue(p + [DigitChar(d)]) == 10 * DigitsValue(p) + d
  {
    var s := p + [DigitChar(d)];
    assert s[..|s| - 1] == p;
  }

  /** The string a template literal `${n}` produces for an integer with
      |n| < 10^21 (larger ones are printed in exponent form, which is not
      modelled): a minus sign exactly for negative numbers, then digits
      without a leading zero, "0" alone for zero. */
  function DecimalString(n: int): (s: string)
    ensures |s| >= 1
    ensures s[0] == '-' <==> n < 0
    ensures var d := if n < 0 then s[1..] else s;
      |d| >= 1 && IsDigits(d) && (d[0] == '0' ==> d == "0" && n == 0)
  {
    if n < 0 then "-" + NatDigits(-n) else NatDigits(n)
  }

  /** Reads an optionally negative decimal integer: the partner of
      `DecimalString`. */
  function ParseInt(s: string): Option<int> {
    if |s| >= 2 && s[0] == '-' && IsDigits(s[1..]) then Some(0 - DigitsValue(s[1..]) as int)
    else if |s| >= 1 && IsDigits(s) then Some(DigitsValue(s))
    else None
  }

  /** A minus sign followed by digits reads as the negated digit value. */
  lemma ParseNegative(d: string)
    requires |d| >= 1 && IsDigits(d)
    ensures ParseInt("-" + d) == Some(0 - DigitsValue(d) as int)
  {
    assert ("-" + d)[1..] == d;
  }

  /** Digits alone read as their value. */
  lemma ParseDigits(d: string)
    requires |d| >= 1 && IsDigits(d)
    ensures ParseInt(d) == Some(DigitsValue(d) as int)
  {
    assert d[0] != '-';
  }

  /** A negative number's text reads back as that number. */
  lemma NegativeRoundTrip(n: int)
    requires n < 0
    ensures ParseInt(DecimalString(n)) == Some(n)
  {
    var m: nat := -n;
    var d := NatDigits(m);
    NatDigitsValue(m);
    ParseNegative(d);
    assert ParseInt("-" + d) == Some(-(m as int));
    assert DecimalString(n) == "-" + d;
  }

  /** A non-negative number's text reads back as that number. */
  lemma NonNegativeRoundTrip(n: int)
    requires n >= 0
    ensures ParseInt(DecimalString(n)) == Some(n)
  {
    var d := NatDigits(n);
    assert DecimalString(n) == d;
    ParseDigits(d);
    NatDigitsValue(n);
  }

  /** Printing an integer and reading it back is the identity. */
  lemma DecimalRoundTrip(n: int)
    ensures ParseInt(DecimalString(n)) == Some(n)
  {
    if n < 0 {
      NegativeRoundTrip(n);
    } else {
      NonNegativeRoundTrip(n);
    }
  }
}

=== FILE: radial_score.dfy ===
/** The semicircular score gauge: a two-slice pie whose first slice is the
    score, coloured by a three-band tier, with the score as its centre label. */
module RadialScore {
  import opened Wrappers
  import JsString

  const Green: string := "#16a34a"
  const Orange: string := "#ea580c"
  const Red: string := "#dc2626"
  /** The `color` prop's default. */
  const DefaultColor: string := "#2563eb"
  /** Fill of the remainder slice. */
  const RestColor: string := "#e2e8f0"

  /** The tier colour of a score: 80 and above is strong, 60 to 79 moderate,
      below 60 weak. */
  function ScoreColor(val: int): (c: string)
    ensures c == Green <==> val >= 80
    ensures c == Orange <==> 60 <= val < 80
    ensures c == Red <==> val < 60
  {
    if val >= 80 then Green
    else if val >= 60 then Orange
    else Red
  }

  /** The fill of the score slice. A score of 0 is falsy, so it takes the
      `color` prop (or its default) instead of its tier colour; every other
      score takes its tier colour and ignores the prop. */
  function FinalColor(score: int, color: Option<string>): (c: string)
    ensures score == 0 ==> c == color.GetOr(DefaultColor)
    ensures score != 0 ==> (c == Green <==> score >= 80)
    ensures score != 0 ==> (c == Orange <==> 60 <= score < 80)
    ensures score != 0 ==> (c == Red <==> score < 60)
  {
    if score != 0 then ScoreColor(score) else color.GetOr(DefaultColor)
  }

  /** A zero score is drawn in the default blue, not in the red of its tier. */
  lemma ZeroScoreQuirk()
    ensures FinalColor(0, None) == DefaultColor
    ensures ScoreColor(0) == Red && FinalColor(0, None) != ScoreColor(0)
  {
  }

  datatype Slice = Slice(name: string, value: int)

  /** The pie data: the score and what is left of 100. Nothing clamps the
      score, so a score above 100 gives a negative remainder. */
  function GaugeData(score: int): (d: seq<Slice>)
    ensures |d| == 2
    ensures d[0] == Slice("Score", score) && d[1].name == "Rest"
    ensures d[0].value + d[1].value == 100
  {
    [Slice("Score", score), Slice("Rest", 100 - score)]
  }

  /** The centre label: the score followed by a percent sign. */
  function CentreLabel(score: int): (l: string)
    ensures l == JsString.DecimalString(score) + "%"
    ensures |l| >= 2 && l[|l| - 1] == '%'
    ensures JsString.ParseInt(l[..|l| - 1]) == Some(score)
  {
    var digits := JsString.DecimalString(score);
    JsString.DecimalRoundTrip(score);
    assert (digits + "%")[..|digits|] == digits;
    digits + "%"
  }

  /** Everything the gauge displays. */
  datatype Gauge = Gauge(
    slices: seq<Slice>,
    scoreFill: string,
    restFill: string,
    centreLabel: string,
    title: string,
    caption: string)

  /** Renders the gauge for a score, the caption under it (the `label` prop)
      and an optional colour. */
  function Render(score: int, caption: string, color: Option<string>): (g: Gauge)
    ensures |g.slices| == 2 && g.slices[0].value == score
    ensures g.slices[0].value + g.slices[1].value == 100
    ensures g.scoreFill == FinalColor(score, color) && g.restFill == RestColor
    ensures g.centreLabel == CentreLabel(score)
    ensures g.title == "ATS Score" && g.caption == caption
  {
    Gauge(GaugeData(score), FinalColor(score, color), RestColor, CentreLabel(score), "ATS Score", caption)
  }
}

=== FILE: wrappers.dfy ===
/** A value that may be absent: the model's reading of a JSON field or a
    JavaScript value that can be `undefined` or `null` at run time. */
module Wrappers {

  datatype Option<+T> = None | Some(value: T) {

    /** The wrapped value, or `default` when there is none. */
    function GetOr(default: T): T {
      match this
      case Some(v) => v
      case None => default
    }
  }
}
